=== FILE: README.md ===
# Spending-forecast engine, modelled in Dafny

This project models the forecast engine of a personal-finance tracker: the two
forecasters in `services/forecast.ts`. Both read the user's expense records.
Each record has a date and an amount.

- **The current-month forecaster** (`getDailyExpenseForecastForCurrentMonth`):
  - It buckets the records of the reference month into per-day totals and takes their running sum.
  - It fits an ordinary least-squares line through the running sums of the elapsed days.
  - It averages the line's month-end value with a flat daily-average extrapolation and rounds the result.
  - It raises that figure to the rounded spending when it lies below what has already been spent.
- **The next-month forecaster** (the computational body of `getMonthlyExpenseForecast`):
  - It groups all records into `YYYY-MM` totals, keyed in first-seen order.
  - It picks the forecast by the number of months:
    - one month: that month's total;
    - two or three: the rounded mean of the moving average of the last three totals and the median;
    - more: the rounded mean of those two and the least-squares line continued one month.

Amounts are exact reals. `Math.round(v)` is `floor(v + 1/2)` (`Statistics.Round`).
Dates are `(year, month, day)` triples valid in the proleptic Gregorian calendar
(`Calendar.CalDate`, with 1-based months). A record's date is
`Option<CalDate>`: `None` stands for a JavaScript `Date` that failed to parse.

Modules, in dependency order:

| module | file | contents |
|---|---|---|
| `Wrappers` | `wrappers.dfy` | `Option` |
| `Calendar` | `calendar.dfy` | leap years, month lengths (`new Date(y, m + 1, 0).getDate()`), valid dates |
| `MonthKeys` | `month_keys.dfy` | the `YYYY-MM` key as the template literal builds it, and its parse-back |
| `Expenses` | `expenses.dfy` | the record type and the sums the series are specified by |
| `LeastSquares` | `least_squares.dfy` | closed-form slope and intercept over given sums, and the algebra of the normal equations |
| `Statistics` | `statistics.dfy` | the `reduce` sums over x = 1..n, the normal equations, median (sort of a copy), moving average |
| `Regression` | `regression.dfy` | the fitted line of a series and its characterisation |
| `DailyForecast` | `daily_forecast.dfy` | the current-month forecaster: buckets filled in an array, running sum loop, projection |
| `MonthlyForecast` | `monthly_forecast.dfy` | the next-month forecaster: grouping loop over a map, branch selection |

The fitted line is specified without its formula. `Regression.Fit` satisfies the
two least-squares normal equations, and `Regression.FitUnique` shows it is the
only line that does. For x = 1..n the denominator n·Σx² − (Σx)² equals
n²(n² − 1)/12, which is positive once n ≥ 2 (`Statistics.DenominatorPositive`).
So the slope's division is defined on both regression paths.

## Model

| member | source | states |
|---|---|---|
| Calendar.DaysInMonth | services/forecast.ts:9 | the month has 28 to 31 days; 28 exactly for February of a common year, 29 exactly for February of a leap year |
| Calendar.YearLengthGregorian | services/forecast.ts:9 | the twelve month lengths add up to 366 days in a leap year and 365 otherwise |
| MonthKeys.NatToString | services/forecast.ts:94 | the decimal rendering of a number is a non-empty string of digits |
| MonthKeys.PadMonth | services/forecast.ts:94 | `padStart(2, "0")` of a month number gives exactly two digits |
| MonthKeys.ParseNatToString | services/forecast.ts:94 | reading a rendered number back gives the number |
| MonthKeys.ParsePadMonth | services/forecast.ts:94 | reading a padded month back gives the month |
| MonthKeys.ParseIntToString | services/forecast.ts:94 | reading a rendered year back, negative years included, gives the year |
| MonthKeys.MonthKeyRoundTrip | services/forecast.ts:94 | every `YYYY-MM` key reads back as the year and month it was made from |
| MonthKeys.MonthKeyInjective | services/forecast.ts:94 | two calendar months share a key if and only if they are the same month |
| MonthKeys.MonthKeyNotInvalid | services/forecast.ts:94 | no calendar month's key equals the key "NaN-NaN" of an invalid date |
| Expenses.KeyOfInMonth | services/forecast.ts:93-95 | a record falls under a month's key if and only if it is dated in that month |
| Expenses.KeyTotalIsMonthSum | services/forecast.ts:93-95 | the total collected under a month's key is exactly that month's spending |
| Expenses.MonthSumUpToLastDay | services/forecast.ts:11-16 | counting every day of the month leaves out none of the month's records |
| Expenses.MonthSumUpToStep | services/forecast.ts:11-23 | spending through a day is spending through the day before plus that day's bucket |
| Expenses.MonthSumUpToNothing | services/forecast.ts:18-19 | the running sum starts from nothing |
| LeastSquares.SolveNormalEquations | services/forecast.ts:43-44 | the closed-form slope and intercept solve both normal equations |
| LeastSquares.NormalEquationsSolved | services/forecast.ts:43-44 | any solution of the normal equations is the closed-form slope and intercept |
| LeastSquares.SolutionUnique | services/forecast.ts:43-44 | two solutions of the same normal equations are the same line |
| Statistics.Round | services/forecast.ts:51 | `Math.round` gives the integer within one half of its argument, halves rounded up |
| Statistics.Ceil | services/forecast.ts:52-53 | the least integer not below its argument; used only by the corrected safeguard of the Findings row, since line 53 itself rounds |
| Statistics.CeilAboveRound | services/forecast.ts:53 | the ceiling is the rounding line 53 uses or one more, and one more exactly when that rounding lies below the value |
| Statistics.RoundOfInteger | services/forecast.ts:51 | rounding a whole number returns it |
| Statistics.SumSnoc | services/forecast.ts:39-42 | appending a value adds it to Σy, and adds it times its position to Σxy |
| Statistics.SumXClosedForm | services/forecast.ts:39 | Σx over x = 1..n is n(n + 1)/2 |
| Statistics.SumX2ClosedForm | services/forecast.ts:42 | Σx² over x = 1..n is n(n + 1)(2n + 1)/6 |
| Statistics.DenominatorClosedForm | services/forecast.ts:43 | n·Σx² − (Σx)² over x = 1..n is n²(n² − 1)/12 |
| Statistics.DenominatorPositive | services/forecast.ts:38-44 | the slope's denominator is positive for every n ≥ 2, so the slope is defined |
| Statistics.NormalEquationsUnique | services/forecast.ts:136-148 | over two or more points, at most one line satisfies the normal equations |
| Statistics.LinearSums | services/forecast.ts:39-42 | points that lie on a line satisfy that line's normal equations, over every prefix |
| Statistics.Insert | services/forecast.ts:110 | inserting into a sorted list keeps it sorted and adds exactly the one value |
| Statistics.SortAscending | services/forecast.ts:110 | the numeric sort of the copy is sorted and a permutation of the totals |
| Statistics.SortedUnique | services/forecast.ts:110 | two sorted permutations of the same values are equal, so the comparator sort has one outcome |
| Statistics.Median | services/forecast.ts:108-113 | median() on the month totals: 0 for none, else the rounded middle value of the ascending copy, or the rounded mean of the middle two; `MedianOfSorted`, `MedianIgnoresOrder` and `MedianWithin` state what it means |
| Statistics.MedianIgnoresOrder | services/forecast.ts:108-113 | the median depends on the values only, not on the order of the totals |
| Statistics.MedianOfSorted | services/forecast.ts:109-112 | the median is the rounded middle value of any ascending arrangement, or the rounded mean of the middle two |
| Statistics.MedianWithin | services/forecast.ts:108-113 | with every total between two whole numbers, so is the median |
| Statistics.MovingAverage | services/forecast.ts:102-106 | movingAvg() on the month totals: the rounded mean of the last min(3, n) totals, 0 for none; `MovingAverageAll`, `MovingAverageRecent`, `MovingAverageLastThree` and `MovingAverageWithin` state what it means |
| Statistics.MovingAverageAll | services/forecast.ts:101-106 | with one to three totals, the moving average is the rounded mean of all of them |
| Statistics.MovingAverageRecent | services/forecast.ts:102-106 | once there are three totals, only the last three matter |
| Statistics.MovingAverageLastThree | services/forecast.ts:103-105 | with three or more totals the moving average is the rounded mean of the last three |
| Statistics.MovingAverageWithin | services/forecast.ts:102-106 | with every total between two whole numbers, so is the moving average |
| Regression.Fit | services/forecast.ts:37-44 | the fitted line satisfies both least-squares normal equations over x = 1..n |
| Regression.FitUnique | services/forecast.ts:37-44 | the fitted line is the only line satisfying them |
| Regression.ExactFit | services/forecast.ts:37-44 | points already on a line are fitted by exactly that line |
| DailyForecast.DailyTotals | services/forecast.ts:9-16 | one bucket per day of the reference month; `MonthToDate`, `OtherMonthIgnored` and `NoRecordsThisMonth` state which records fill it |
| DailyForecast.RunningTotals | services/forecast.ts:18-23 | as long as the buckets; its first entry is the first bucket and each later entry is the one before plus the next bucket |
| DailyForecast.MonthToDate | services/forecast.ts:11-28 | the running sum at day d is the month's spending through day d; on the last day it is the month's total, and equals that month's group in the next-month forecaster |
| DailyForecast.RunningTotalsNondecreasing | services/forecast.ts:18-23 | with no negative amounts the running sum never decreases |
| DailyForecast.Blend | services/forecast.ts:45-51 | the mean of the fitted line at the month's last day and the daily average times the days of the month; `SteadySpending` states its value for steady spending |
| DailyForecast.RaiseToSpent | services/forecast.ts:52-53 | the corrected safeguard never lowers the forecast and never leaves it below the spending; it raises it only to the least whole number that is not below |
| DailyForecast.RaiseAsWritten | services/forecast.ts:53 | the safeguard as written is the larger of the rounded blend and the rounded spending: it never lowers the blend, keeps it whenever it is not below the spending, and lands at most one half below the spending |
| DailyForecast.Project | services/forecast.ts:25-61 | with the safeguard as line 53 writes it: one day gives the spending, no line and the insufficient-data message; from two days on, a whole-number forecast at least the rounded spending, the fitted line and the forecast as message; that forecast is the rounded blend or the rounded spending, never below the rounded blend, and exactly the rounded blend when that is not below the spending; on every path the forecast is above the spending minus one half |
| DailyForecast.ProjectCorrected | services/forecast.ts:52-53 | the projection with the corrected safeguard of the Findings row is never below the spending so far |
| DailyForecast.CorrectionRaisesByAtMostOne | services/forecast.ts:53 | the correction keeps the line and raises the forecast by at most one, and changes it exactly when line 53 as written leaves it below the spending |
| DailyForecast.SteadySpending | services/forecast.ts:37-51 | spending at a steady daily rate fits the line through the origin with that slope, and the blend is that rate times the days of the month |
| DailyForecast.NothingSpent | services/forecast.ts:29-51 | a month with nothing spent so far is projected at nothing, on either path |
| DailyForecast.NoRecordsThisMonth | services/forecast.ts:11-16 | records of other months and records with invalid dates fill no bucket; without records in the month the forecast is nothing |
| DailyForecast.OtherMonthIgnored | services/forecast.ts:12 | adding a record dated outside the reference month, or with an invalid date, changes no bucket |
| DailyForecast.FillDayBuckets | services/forecast.ts:10-16 | the array filled in place holds, for each day, the amounts of the month's records dated that day |
| DailyForecast.Accumulate | services/forecast.ts:18-23 | the loop's list is the running sum of the day buckets |
| DailyForecast.ForecastCurrentMonth | services/forecast.ts:5-62 | both series span the month's days and hold the buckets and their running sum; the forecast is the projection from the elapsed days, with the safeguard as written, and is above the spending minus one half; fewer than two days give the current total, no line and the insufficient-data message; otherwise a forecast at least the rounded spending, the fitted line and the forecast as message |
| DailyForecast.SafeguardAsWrittenFallsShort | services/forecast.ts:53 | one 10.30 expense on 2023-02-28, seen that day: the blend rounds to 6, the safeguard as written raises it to 10, so the projection is 10, below the 10.30 spent; the corrected projection gives 11 |
| Expenses.KeyOf | services/forecast.ts:94 | a record's `YYYY-MM` key, or "NaN-NaN" for an invalid date; `KeyOfInMonth` states which records share a month's key |
| MonthKeys.MonthKey | services/forecast.ts:94 | the template literal of line 94; `MonthKeyRoundTrip`, `MonthKeyInjective` and `MonthKeyNotInvalid` state what it means |
| MonthlyForecast.GroupKeys | services/forecast.ts:91-98 | `Object.keys(monthlyTotals)`: the record keys in first-seen order; `GroupKeysExact` and `GroupKeysFirstSeenOrder` state what it means |
| MonthlyForecast.TotalsByKey | services/forecast.ts:91-96 | the totals object: each group key mapped to the sum of its records; `TallyByMonth` is proved to build it |
| MonthlyForecast.MonthlyTotals | services/forecast.ts:99 | `Object.values(monthlyTotals)`: the group totals in key order; `MonthlyTotalsConserve` states that they add up to all amounts |
| MonthlyForecast.GroupKeysExact | services/forecast.ts:93-98 | the month keys carry no duplicate; every record's key is among them, and each key is carried by some record |
| MonthlyForecast.GroupKeysFirstSeenOrder | services/forecast.ts:93-98 | the keys of any prefix of the records are a prefix of the keys, so keys stay in first-insertion order |
| MonthlyForecast.KeyTotalOfAbsentKey | services/forecast.ts:95 | a key no record carries collects nothing |
| MonthlyForecast.MonthlyTotalsConserve | services/forecast.ts:91-99 | grouping loses and duplicates nothing: the month totals add up to the sum of all amounts |
| MonthlyForecast.Ensemble | services/forecast.ts:150-156 | the whole number nearest the mean of the line at n + 1, the moving average and the median |
| MonthlyForecast.NextMonthEstimate | services/forecast.ts:115-165 | a line is reported exactly when there are more than three months, and it satisfies the normal equations of the totals; one month forecasts that month's total; two or three months forecast the whole number nearest the mean of the moving average and the median; every other branch forecasts a whole number; each branch carries its own message |
| MonthlyForecast.EnsembleOfFittedLine | services/forecast.ts:133-165 | with more than three months, any line satisfying the normal equations of the totals is the reported line, and the forecast is its ensemble with the moving average and the median |
| MonthlyForecast.FewMonthsWithin | services/forecast.ts:115-131 | with at most three months the forecast stays within any whole-number bounds of the totals |
| MonthlyForecast.SteadyHistory | services/forecast.ts:115-156 | the same whole amount every month forecasts that amount, in every branch |
| MonthlyForecast.ThreeMonthExample | services/forecast.ts:123-131 | totals 100, 200, 300: moving average 200, median 200, forecast 200 |
| MonthlyForecast.FiveMonthExample | services/forecast.ts:133-156 | totals 100 to 500: slope 100, intercept 0, moving average 400, median 300, forecast 433 |
| MonthlyForecast.NegativeForecastExample | services/forecast.ts:133-156 | totals 1000, 0, 0, 0 fit the line 1000 − 300x, and the forecast is −167 |
| MonthlyForecast.TallyByMonth | services/forecast.ts:91-98 | the map filled record by record maps each month key to its group's total, and the key list is the first-seen order |
| MonthlyForecast.GroupByMonth | services/forecast.ts:91-99 | months, the totals object and the totals listed in key order; at least one month once there is a record |
| MonthlyForecast.ForecastNextMonth | services/forecast.ts:88-165 | no records give no result; otherwise the months in first-seen order, the forecast, line and message of the selected branch, and the totals object on the ensemble branch only |

## Left out

- Fetching the records and the sign-in check (services/forecast.ts:70-86), including the `null` returned when no user is signed in (line 72). This is network I/O through the Firebase SDK. The record list is the input of `MonthlyForecast.ForecastNextMonth` instead.
- The reference instant `now = new Date()` (line 5) reads the clock. It is a parameter of `DailyForecast.ForecastCurrentMonth`.
- JavaScript `Date` semantics: time zones, the string parsing of line 82 and 0-based `getMonth()`. A record's date is already a calendar date, or `None` when it would be an invalid `Date`.
- `Calendar.DaysInMonth`: `new Date(year, month + 1, 0)` at line 9 reads years 0 to 99 as 1900 to 1999. So for February of year 0 the source counts 28 days where the model counts 29. Reference years below 100 are not modelled as JavaScript treats them.
- IEEE-754 arithmetic. Amounts, sums and the fitted line are exact reals, so no rounding error and no NaN or infinite amount is modelled. Hence `|| 0` at lines 28 and 95 changes nothing for real values.
- `Object.keys` lists integer-like keys first. No `YYYY-MM` key and no "NaN-NaN" is integer-like, so plain insertion order is modelled.
- `services/firebase.ts`, the React components, `constants.ts` and `types.ts` are not part of this model. They hold SDK wrappers, UI and static data, with no forecasting logic.
- Two behaviours of the code worth noting:
  - Records with an unparseable date are not dropped by the next-month forecaster. They form a "NaN-NaN" month of their own (line 94; `Expenses.KeyOf`).
  - The next-month forecast is not kept non-negative. `MonthlyForecast.NegativeForecastExample` exhibits a forecast of −167.

## Findings

| source | as written | input that shows it | evidently intended | confidence | as-written member | corrected member |
|---|---|---|---|---|---|---|
| services/forecast.ts:53 | a forecast below the month-to-date total is raised to `Math.round(currentTotal)`, which is below the total whenever its fraction is under one half | a single 10.30 expense on 2023-02-28, with now = 2023-02-28: the blend rounds to 6 and is raised to 10, below the 10.30 already spent | the forecast is never below the current total, as the comment on line 52 says; raising to the ceiling of the total achieves that | not executed | DailyForecast.RaiseAsWritten, DailyForecast.SafeguardAsWrittenFallsShort | DailyForecast.RaiseToSpent, DailyForecast.ProjectCorrected |

`DailyForecast.Project` and `DailyForecast.ForecastCurrentMonth` model line 53
as written, and their contracts state its true bound: at least the rounded
spending. `DailyForecast.ProjectCorrected` uses the corrected safeguard and is
never below the spending so far. `DailyForecast.CorrectionRaisesByAtMostOne`
states how far apart the two projections can be.

=== FILE: calendar.dfy ===
/**
 * Calendar dates of the proleptic Gregorian calendar, as a JavaScript `Date`
 * presents them through getFullYear/getMonth/getDate. Months are 1-based here
 * (the source's getMonth() is 0-based and adds 1 where it needs the number).
 */
module Calendar {

  datatype Date = Date(year: int, month: int, day: int)

  predicate IsLeapYear(year: int) {
    year % 4 == 0 && (year % 100 != 0 || year % 400 == 0)
  }

  /** Number of days of `month` in `year`: the day number of the month's last
      day, which the source obtains as `new Date(year, month + 1, 0).getDate()`. */
  function DaysInMonth(year: int, month: int): (days: int)
    requires 1 <= month <= 12
    ensures 28 <= days <= 31
    ensures days == 28 <==> month == 2 && !IsLeapYear(year)
    ensures days == 29 <==> month == 2 && IsLeapYear(year)
  {
    if month == 2 then (if IsLeapYear(year) then 29 else 28)
    else if month == 4 || month == 6 || month == 9 || month == 11 then 30
    else 31
  }

  /** A date a JavaScript `Date` object can denote: the day lies within its month. */
  predicate ValidDate(d: Date) {
    1 <= d.month <= 12 && 1 <= d.day <= DaysInMonth(d.year, d.month)
  }

  type CalDate = d: Date | ValidDate(d) witness Date(1970, 1, 1)

  function YearLength(year: int): int {
    DaysInMonth(year, 1) + DaysInMonth(year, 2) + DaysInMonth(year, 3) + DaysInMonth(year, 4)
    + DaysInMonth(year, 5) + DaysInMonth(year, 6) + DaysInMonth(year, 7) + DaysInMonth(year, 8)
    + DaysInMonth(year, 9) + DaysInMonth(year, 10) + DaysInMonth(year, 11) + DaysInMonth(year, 12)
  }

  /** The month lengths add up to the Gregorian year: 366 days in a leap year, 365 otherwise. */
  lemma YearLengthGregorian(year: int)
    ensures YearLength(year) == if IsLeapYear(year) then 366 else 365
  {
  }
}

=== FILE: daily_forecast.dfy ===
/**
 * The current-month forecaster (getDailyExpenseForecastForCurrentMonth in
 * services/forecast.ts): per-day totals for the month of the reference date,
 * their running sum, and a projection of the month-end total that blends a
 * least-squares line with a flat daily-average extrapolation and raises a
 * figure below what has already been spent to the rounded spending.
 */
module DailyForecast {
  import opened Wrappers
  import opened Calendar
  import opened MonthKeys
  import opened LeastSquares
  import opened Statistics
  import opened Regression
  import opened Expenses

  /** The result's message: a text on the insufficient-data path, and the
      forecast number itself on the regression path (the source returns
      `message: forecast` there). */
  datatype Message = Text(text: string) | Figure(value: real)

  const InsufficientData: string := "Insufficient data for daily trend. Showing current total."

  datatype DailyResult = DailyResult(
    forecast: real,
    dailyTotals: seq<real>,
    cumulative: seq<real>,
    line: Option<Line>,     // slope and intercept, on the regression path only
    message: Message)

  datatype Projection = Projection(forecast: real, line: Option<Line>, message: Message)

  // ---------------------------------------------------------------------------
  // Specification of the two series

  /** One bucket per day of the month: the amounts of the records dated on that day. */
  function DailyTotals(es: seq<Expense>, year: int, month: int): (t: seq<real>)
    requires 1 <= month <= 12
    ensures |t| == DaysInMonth(year, month)
  {
    seq(DaysInMonth(year, month), d => DaySum(es, year, month, d + 1))
  }

  /** Running sums: entry i is the sum of entries 0..i, so each entry is the one
      before plus the next bucket. */
  function RunningTotals(s: seq<real>): (c: seq<real>)
    ensures |c| == |s|
    ensures |s| > 0 ==> c[0] == s[0]
    ensures forall i :: 0 < i < |s| ==> c[i] == c[i - 1] + s[i]
  {
    assert |s| > 0 ==> SumTo(s, 1) == SumTo(s, 0) + s[0];
    seq(|s|, i requires 0 <= i < |s| => SumTo(s, i + 1))
  }

  /** Entry d - 1 of the running sum of the day buckets is the month's spending
      through day d; on the last day it is the month's whole spending, which is
      also the total the next-month forecaster groups under the month's key. */
  lemma MonthToDate(es: seq<Expense>, year: int, month: int, day: int)
    requires 1 <= month <= 12 && 1 <= day <= DaysInMonth(year, month)
    ensures RunningTotals(DailyTotals(es, year, month))[day - 1] == MonthSumUpTo(es, year, month, day)
    ensures day == DaysInMonth(year, month) ==>
              RunningTotals(DailyTotals(es, year, month))[day - 1] == MonthSum(es, year, month)
                == KeyTotal(es, MonthKey(year, month))
  {
    var t := DailyTotals(es, year, month);
    PrefixSumIsMonthToDate(es, year, month, day);
    if day == DaysInMonth(year, month) {
      MonthSumUpToLastDay(es, year, month);
      KeyTotalIsMonthSum(es, year, month);
    }
  }

  lemma {:induction false} PrefixSumIsMonthToDate(es: seq<Expense>, year: int, month: int, day: int)
    requires 1 <= month <= 12 && 0 <= day <= DaysInMonth(year, month)
    ensures SumTo(DailyTotals(es, year, month), day) == MonthSumUpTo(es, year, month, day)
  {
    var t := DailyTotals(es, year, month);
    if day == 0 {
      MonthSumUpToNothing(es, year, month);
    } else {
      PrefixSumIsMonthToDate(es, year, month, day - 1);
      MonthSumUpToStep(es, year, month, day);
    }
  }

  /** With no negative amounts the running sum never decreases. */
  lemma RunningTotalsNondecreasing(s: seq<real>)
    requires forall i :: 0 <= i < |s| ==> s[i] >= 0.0
    ensures forall i, j :: 0 <= i <= j < |s| ==> RunningTotals(s)[i] <= RunningTotals(s)[j]
  {
    var c := RunningTotals(s);
    forall i, j | 0 <= i <= j < |s| ensures c[i] <= c[j] {
      RunningTotalsRise(s, i, j);
    }
  }

  lemma {:induction false} RunningTotalsRise(s: seq<real>, i: nat, j: nat)
    requires forall k :: 0 <= k < |s| ==> s[k] >= 0.0
    requires i <= j < |s|
    ensures RunningTotals(s)[i] <= RunningTotals(s)[j]
  {
    if i < j {
      RunningTotalsRise(s, i, j - 1);
    }
  }

  // ---------------------------------------------------------------------------
  // Projection of the month-end total from the running sums so far

  /** Equal-weight blend of the least-squares line at the month's last day and
      the average spend per elapsed day times the days of the month. */
  function Blend(soFar: seq<real>, daysInMonth: int): real
    requires |soFar| >= 2
  {
    var l := Fit(soFar);
    var spent := soFar[|soFar| - 1];
    var regression := l.slope * daysInMonth as real + l.intercept;
    var extrapolated := spent / |soFar| as real * daysInMonth as real;
    (regression + extrapolated) / 2.0
  }

  /** The safeguard: the rounded blend, raised when it lies below what has been
      spent to the least whole number that does not. */
  function RaiseToSpent(blended: int, spent: real): (r: int)
    ensures r >= blended && r as real >= spent
    ensures r == blended || (r - 1) as real < spent
  {
    if (blended as real) < spent then Ceil(spent) else blended
  }

  /** The safeguard as services/forecast.ts:53 writes it: raised to the ROUNDED
      total, which lies below a total whose fraction is under one half. */
  function RaiseAsWritten(blended: int, spent: real): (r: int)
    ensures r as real > spent - 0.5
    ensures r == if blended >= Round(spent) then blended else Round(spent)
    ensures (blended as real) >= spent ==> r == blended
  {
    if (blended as real) < spent then Round(spent) else blended
  }

  /** Forecast, fitted line and message from the running sums of the elapsed
      days, with the safeguard as services/forecast.ts:53 writes it: one day
      reports the spending itself; from two days on the forecast is a whole
      number, at least the rounded spending, so never more than one half below
      the spending. */
  function Project(soFar: seq<real>, daysInMonth: int): (p: Projection)
    requires |soFar| >= 1
    ensures var spent := soFar[|soFar| - 1];
            p.forecast > spent - 0.5
            && (|soFar| < 2 ==> p.forecast == spent && p.line.None? && p.message == Text(InsufficientData))
            && (|soFar| >= 2 ==> p.forecast >= Round(spent) as real && p.forecast == p.forecast.Floor as real
                                 && p.line == Some(Fit(soFar)) && p.message == Figure(p.forecast))
    ensures |soFar| >= 2 ==>
              var blended := Round(Blend(soFar, daysInMonth));
              p.forecast >= blended as real
              && (blended as real >= soFar[|soFar| - 1] ==> p.forecast == blended as real)
              && (p.forecast == blended as real || p.forecast == Round(soFar[|soFar| - 1]) as real)
  {
    var spent := soFar[|soFar| - 1];
    if |soFar| < 2 then Projection(spent, None, Text(InsufficientData))
    else
      var f := RaiseAsWritten(Round(Blend(soFar, daysInMonth)), spent);
      Projection(f as real, Some(Fit(soFar)), Figure(f as real))
  }

  /** The projection with the corrected safeguard, which raises to the ceiling
      of the spending: never below the spending so far. */
  function ProjectCorrected(soFar: seq<real>, daysInMonth: int): (p: Projection)
    requires |soFar| >= 1
    ensures p.forecast >= soFar[|soFar| - 1]
  {
    var spent := soFar[|soFar| - 1];
    if |soFar| < 2 then Projection(spent, None, Text(InsufficientData))
    else
      var f := RaiseToSpent(Round(Blend(soFar, daysInMonth)), spent);
      Projection(f as real, Some(Fit(soFar)), Figure(f as real))
  }

  /** The correction changes only the forecast, and only by raising it by at
      most one: it differs from the written safeguard exactly when that one
      lands below the spending. */
  lemma CorrectionRaisesByAtMostOne(soFar: seq<real>, daysInMonth: int)
    requires |soFar| >= 1
    ensures var p, q := Project(soFar, daysInMonth), ProjectCorrected(soFar, daysInMonth);
            p.line == q.line
            && p.forecast <= q.forecast <= p.forecast + 1.0
            && (p.forecast != q.forecast <==> p.forecast < soFar[|soFar| - 1])
  {
    var spent := soFar[|soFar| - 1];
    if |soFar| >= 2 {
      var b := Round(Blend(soFar, daysInMonth));
      if (b as real) < spent {
        CeilAboveRound(spent);
      }
    }
  }

  /** Spending at a steady daily rate: the fitted line and the daily-average
      extrapolation agree, and the blend is that rate over the whole month. */
  lemma SteadySpending(soFar: seq<real>, rate: real, daysInMonth: int)
    requires |soFar| >= 2
    requires forall i :: 0 <= i < |soFar| ==> soFar[i] == rate * (i + 1) as real
    ensures Fit(soFar) == Line(rate, 0.0)
    ensures Blend(soFar, daysInMonth) == rate * daysInMonth as real
  {
    ExactFit(soFar, rate, 0.0);
    var spent := soFar[|soFar| - 1];
    assert spent == rate * |soFar| as real;
    SteadyBlend(rate, |soFar| as real, daysInMonth as real, spent, Fit(soFar));
  }

  lemma SteadyBlend(rate: real, t: real, d: real, spent: real, l: Line)
    requires t > 0.0 && spent == rate * t && l == Line(rate, 0.0)
    ensures ((l.slope * d + l.intercept) + spent / t * d) / 2.0 == rate * d
  {
    assert spent / t == rate;
  }

  /** A month with nothing spent so far is projected at nothing. */
  lemma NothingSpent(soFar: seq<real>, daysInMonth: int)
    requires |soFar| >= 1 && daysInMonth >= 1
    requires forall i :: 0 <= i < |soFar| ==> soFar[i] == 0.0
    ensures Project(soFar, daysInMonth).forecast == 0.0
  {
    if |soFar| >= 2 {
      ExactFit(soFar, 0.0, 0.0);
      assert Blend(soFar, daysInMonth) == 0.0;
      RoundOfInteger(0);
    }
  }

  /** Records of other months, and records with invalid dates, fill no bucket:
      a month without records is projected at nothing, on either path. */
  lemma NoRecordsThisMonth(es: seq<Expense>, now: CalDate)
    requires forall i :: 0 <= i < |es| ==> !InMonth(es[i], now.year, now.month)
    ensures forall d :: 0 <= d < DaysInMonth(now.year, now.month) ==> DailyTotals(es, now.year, now.month)[d] == 0.0
    ensures var c := RunningTotals(DailyTotals(es, now.year, now.month));
            Project(c[..now.day], |c|).forecast == 0.0
  {
    var t := DailyTotals(es, now.year, now.month);
    forall d | 0 <= d < |t| ensures t[d] == 0.0 {
      NoRecordsNoDaySum(es, now.year, now.month, d + 1);
    }
    var c := RunningTotals(t);
    forall i | 0 <= i < |c| ensures c[i] == 0.0 {
      SumToOfZeros(t, i + 1);
    }
    NothingSpent(c[..now.day], |c|);
  }

  /** A record dated outside the month, or with an invalid date, changes no bucket. */
  lemma OtherMonthIgnored(es: seq<Expense>, e: Expense, year: int, month: int)
    requires 1 <= month <= 12 && !InMonth(e, year, month)
    ensures DailyTotals(es + [e], year, month) == DailyTotals(es, year, month)
  {
    assert (es + [e])[..|es|] == es;
  }

  lemma {:induction false} NoRecordsNoDaySum(es: seq<Expense>, year: int, month: int, day: int)
    requires forall i :: 0 <= i < |es| ==> !InMonth(es[i], year, month)
    ensures DaySum(es, year, month, day) == 0.0
  {
    if |es| > 0 {
      NoRecordsNoDaySum(es[..|es| - 1], year, month, day);
    }
  }

  // ---------------------------------------------------------------------------
  // The forecaster

  /** The day buckets of `month` of `year`, filled in place from the records. */
  method FillDayBuckets(expenses: seq<Expense>, year: int, month: int) returns (buckets: array<real>)
    requires 1 <= month <= 12
    ensures buckets[..] == DailyTotals(expenses, year, month)
  {
    var daysInMonth := DaysInMonth(year, month);
    buckets := new real[daysInMonth](_ => 0.0);
    var k := 0;
    while k < |expenses|
      invariant 0 <= k <= |expenses|
      invariant forall d :: 0 <= d < daysInMonth ==> buckets[d] == DaySum(expenses[..k], year, month, d + 1)
    {
      var e := expenses[k];
      assert expenses[..k + 1][..k] == expenses[..k];
      if e.date.Some? && e.date.value.year == year && e.date.value.month == month {
        var day := e.date.value.day - 1;
        buckets[day] := buckets[day] + e.amount;
      }
      k := k + 1;
    }
    assert expenses[..k] == expenses;
  }

  /** The running sum of the day buckets. */
  method Accumulate(dailyTotals: seq<real>) returns (cumulative: seq<real>)
    ensures cumulative == RunningTotals(dailyTotals)
  {
    cumulative := [];
    var sum := 0.0;
    for i := 0 to |dailyTotals|
      invariant |cumulative| == i
      invariant sum == SumTo(dailyTotals, i)
      invariant forall j :: 0 <= j < i ==> cumulative[j] == SumTo(dailyTotals, j + 1)
    {
      sum := sum + dailyTotals[i];
      cumulative := cumulative + [sum];
    }
  }

  method ForecastCurrentMonth(expenses: seq<Expense>, now: CalDate) returns (r: DailyResult)
    ensures r.dailyTotals == DailyTotals(expenses, now.year, now.month)
    ensures r.cumulative == RunningTotals(r.dailyTotals)
    ensures |r.dailyTotals| == |r.cumulative| == DaysInMonth(now.year, now.month)
    ensures Projection(r.forecast, r.line, r.message) == Project(r.cumulative[..now.day], |r.cumulative|)
    ensures r.forecast > r.cumulative[now.day - 1] - 0.5
    ensures now.day < 2 ==> r.forecast == r.cumulative[0] && r.line.None? && r.message == Text(InsufficientData)
    ensures now.day >= 2 ==> r.line == Some(Fit(r.cumulative[..now.day])) && r.message == Figure(r.forecast)
                             && r.forecast >= Round(r.cumulative[now.day - 1]) as real
  {
    var daysInMonth := DaysInMonth(now.year, now.month);
    var buckets := FillDayBuckets(expenses, now.year, now.month);
    var dailyTotals := buckets[..];
    var cumulative := Accumulate(dailyTotals);
    // Projection from the elapsed days.
    var today := now.day;
    var y := cumulative[..today];
    var currentTotal := y[today - 1];
    if today < 2 {
      r := DailyResult(currentTotal, dailyTotals, cumulative, None, Text(InsufficientData));
      return;
    }
    var line := Fit(y);
    var forecast := Round(Blend(y, daysInMonth));
    if (forecast as real) < currentTotal {
      forecast := Round(currentTotal);
    }
    r := DailyResult(forecast as real, dailyTotals, cumulative, Some(line), Figure(forecast as real));
  }

  // ---------------------------------------------------------------------------
  // The safeguard as written falls short

  /** A single 10.30 expense on 28 February 2023, with that day as the reference
      date: the blend projects 6, and the safeguard as written raises it only to
      10, below the 10.30 already spent; the corrected safeguard gives 11. */
  lemma SafeguardAsWrittenFallsShort(es: seq<Expense>, y: seq<real>)
    requires es == [Expense(Some(Date(2023, 2, 28)), 10.3)]
    requires y == RunningTotals(DailyTotals(es, 2023, 2))
    ensures |y| == 28 && y[27] == 10.3
    ensures Round(Blend(y, 28)) == 6
    ensures RaiseAsWritten(Round(Blend(y, 28)), y[27]) == 10 < 11 == RaiseToSpent(Round(Blend(y, 28)), y[27])
    ensures Project(y, 28).forecast == 10.0 < y[27]
    ensures ProjectCorrected(y, 28).forecast == 11.0
  {
    var c := 10.3;
    SafeguardExampleTotals(es, y);
    SafeguardExampleFit(y);
    var l := Line(3.0 * c / 406.0, -c / 14.0);
    assert Blend(y, 28) == (l.slope * 28.0 + l.intercept + c / 28.0 * 28.0) / 2.0;
  }

  lemma SafeguardExampleTotals(es: seq<Expense>, y: seq<real>)
    requires es == [Expense(Some(Date(2023, 2, 28)), 10.3)]
    requires y == RunningTotals(DailyTotals(es, 2023, 2))
    ensures |y| == 28 && y[27] == 10.3
    ensures forall i :: 0 <= i < 27 ==> y[i] == 0.0
  {
    var t := DailyTotals(es, 2023, 2);
    assert |t| == 28;
    assert es[..0] == [];
    forall d | 0 <= d < 28 ensures t[d] == if d == 27 then 10.3 else 0.0 {
      assert t[d] == DaySum(es, 2023, 2, d + 1);
    }
    forall i | 0 <= i < 27 ensures y[i] == 0.0 {
      SumToOfZeros(t, i + 1);
    }
    SumToOfZeros(t, 27);
  }

  lemma SafeguardExampleFit(y: seq<real>)
    requires |y| == 28 && y[27] == 10.3
    requires forall i :: 0 <= i < 27 ==> y[i] == 0.0
    ensures Fit(y) == Line(3.0 * 10.3 / 406.0, -10.3 / 14.0)
  {
    var c := 10.3;
    SumToOfZeros(y, 27);
    assert Sum(y) == c;
    assert SumXY(y) == 28.0 * c;
    SumXClosedForm(28);
    SumX2ClosedForm(28);
    FitUnique(y, Line(3.0 * c / 406.0, -c / 14.0));
  }
}

=== FILE: expenses.dfy ===
/**
 * The expense records both forecasters read, and the sums over them that
 * their buckets and groups are specified by. Only the date and the amount of a
 * record matter to the forecasts.
 */
module Expenses {
  import opened Wrappers
  import opened Calendar
  import opened MonthKeys

  /** An expense record; `date` is None when the JavaScript `Date` built for it
      is invalid (its year, month and day all read as NaN). */
  datatype Expense = Expense(date: Option<CalDate>, amount: real)

  predicate InMonth(e: Expense, year: int, month: int) {
    e.date.Some? && e.date.value.year == year && e.date.value.month == month
  }

  predicate OnDay(e: Expense, year: int, month: int, day: int) {
    InMonth(e, year, month) && e.date.value.day == day
  }

  /** Sum of the amounts of the records dated on `day` of `month` of `year`. */
  function DaySum(es: seq<Expense>, year: int, month: int, day: int): real {
    if |es| == 0 then 0.0
    else
      var e := es[|es| - 1];
      DaySum(es[..|es| - 1], year, month, day) + (if OnDay(e, year, month, day) then e.amount else 0.0)
  }

  /** Sum of the amounts of the records dated in `month` of `year`, on or before `day`. */
  function MonthSumUpTo(es: seq<Expense>, year: int, month: int, day: int): real {
    if |es| == 0 then 0.0
    else
      var e := es[|es| - 1];
      MonthSumUpTo(es[..|es| - 1], year, month, day)
      + (if InMonth(e, year, month) && e.date.value.day <= day then e.amount else 0.0)
  }

  /** Sum of the amounts of the records dated in `month` of `year`. */
  function MonthSum(es: seq<Expense>, year: int, month: int): real {
    if |es| == 0 then 0.0
    else
      var e := es[|es| - 1];
      MonthSum(es[..|es| - 1], year, month) + (if InMonth(e, year, month) then e.amount else 0.0)
  }

  /** Sum of all amounts. */
  function TotalAmount(es: seq<Expense>): real {
    if |es| == 0 then 0.0 else TotalAmount(es[..|es| - 1]) + es[|es| - 1].amount
  }

  /** The `YYYY-MM` key a record is grouped under (lines 93-94 of services/forecast.ts). */
  function KeyOf(e: Expense): string {
    match e.date
    case None => InvalidDateKey
    case Some(d) => MonthKey(d.year, d.month)
  }

  /** Sum of the amounts of the records grouped under `key`. */
  function KeyTotal(es: seq<Expense>, key: string): real {
    if |es| == 0 then 0.0
    else
      var e := es[|es| - 1];
      KeyTotal(es[..|es| - 1], key) + (if KeyOf(e) == key then e.amount else 0.0)
  }

  /** A record falls under a calendar month's key exactly when it is dated in that month. */
  lemma KeyOfInMonth(e: Expense, year: int, month: int)
    requires 1 <= month <= 12
    ensures KeyOf(e) == MonthKey(year, month) <==> InMonth(e, year, month)
  {
    match e.date
    case None => MonthKeyNotInvalid(year, month);
    case Some(d) => MonthKeyInjective(d.year, d.month, year, month);
  }

  /** The group a calendar month's key collects is exactly that month's spending. */
  lemma {:induction false} KeyTotalIsMonthSum(es: seq<Expense>, year: int, month: int)
    requires 1 <= month <= 12
    ensures KeyTotal(es, MonthKey(year, month)) == MonthSum(es, year, month)
  {
    if |es| > 0 {
      KeyTotalIsMonthSum(es[..|es| - 1], year, month);
      KeyOfInMonth(es[|es| - 1], year, month);
    }
  }

  /** Counting every day of the month leaves out none of its records: record
      dates are valid, so no day lies beyond the month's last. */
  lemma {:induction false} MonthSumUpToLastDay(es: seq<Expense>, year: int, month: int)
    requires 1 <= month <= 12
    ensures MonthSumUpTo(es, year, month, DaysInMonth(year, month)) == MonthSum(es, year, month)
  {
    if |es| > 0 {
      MonthSumUpToLastDay(es[..|es| - 1], year, month);
    }
  }

  /** Records up to `day` are those up to the day before plus those on `day`. */
  lemma {:induction false} MonthSumUpToStep(es: seq<Expense>, year: int, month: int, day: int)
    ensures MonthSumUpTo(es, year, month, day)
            == MonthSumUpTo(es, year, month, day - 1) + DaySum(es, year, month, day)
  {
    if |es| > 0 {
      MonthSumUpToStep(es[..|es| - 1], year, month, day);
    }
  }

  /** Before the first of the month nothing has been spent. */
  lemma {:induction false} MonthSumUpToNothing(es: seq<Expense>, year: int, month: int)
    ensures MonthSumUpTo(es, year, month, 0) == 0.0
  {
    if |es| > 0 {
      MonthSumUpToNothing(es[..|es| - 1], year, month);
    }
  }
}

=== FILE: least_squares.dfy ===
/**
 * The algebra of a least-squares line y = slope·x + intercept, over the sums
 * of a data set (its size n, Σx, Σx², Σy and Σxy) given as plain numbers: the
 * closed-form slope and intercept, and the polynomial identities the proofs
 * about the sums need.
 */
module LeastSquares {

  datatype Line = Line(slope: real, intercept: real)

  /** Slope and intercept from the sums: m = (nΣxy − ΣxΣy) / (nΣx² − (Σx)²),
      b = (Σy − mΣx) / n. */
  function SolveNormalEquations(n: real, sx: real, sx2: real, sy: real, sxy: real): (l: Line)
    requires n > 0.0 && n * sx2 - sx * sx > 0.0
    ensures sy == l.slope * sx + n * l.intercept
    ensures sxy == l.slope * sx2 + l.intercept * sx
  {
    var m := (n * sxy - sx * sy) / (n * sx2 - sx * sx);
    var b := (sy - m * sx) / n;
    SolvedNormalEquations(n, sx, sx2, sy, sxy, m, b);
    Line(m, b)
  }

  /** The closed-form slope and intercept solve the normal equations. */
  lemma SolvedNormalEquations(n: real, sx: real, sx2: real, sy: real, sxy: real, m: real, b: real)
    requires n > 0.0 && n * sx2 - sx * sx > 0.0
    requires m == (n * sxy - sx * sy) / (n * sx2 - sx * sx)
    requires b == (sy - m * sx) / n
    ensures sy == m * sx + n * b
    ensures sxy == m * sx2 + b * sx
  {
    var d := n * sx2 - sx * sx;
    assert n * b == sy - m * sx;
    assert m * d == n * sxy - sx * sy;
    calc {
      n * (m * sx2 + b * sx);
      m * (n * sx2) + (n * b) * sx;
      m * (n * sx2) + (sy - m * sx) * sx;
      m * d + sx * sy;
      n * sxy;
    }
  }

  /** Any solution of the normal equations is the closed-form one. */
  lemma NormalEquationsSolved(n: real, sx: real, sx2: real, sy: real, sxy: real, m: real, b: real)
    requires n > 0.0 && n * sx2 - sx * sx > 0.0
    requires sy == m * sx + n * b
    requires sxy == m * sx2 + b * sx
    ensures m == (n * sxy - sx * sy) / (n * sx2 - sx * sx)
    ensures b == (sy - m * sx) / n
  {
    var d := n * sx2 - sx * sx;
    calc {
      m * d;
      m * (n * sx2) - m * sx * sx;
      n * (m * sx2 + b * sx) - (m * sx + n * b) * sx;
      n * sxy - sy * sx;
    }
  }

  /** Two solutions of the same normal equations are the same line. */
  lemma SolutionUnique(n: real, sx: real, sx2: real, sy: real, sxy: real, l1: Line, l2: Line)
    requires n > 0.0 && n * sx2 - sx * sx > 0.0
    requires sy == l1.slope * sx + n * l1.intercept && sxy == l1.slope * sx2 + l1.intercept * sx
    requires sy == l2.slope * sx + n * l2.intercept && sxy == l2.slope * sx2 + l2.intercept * sx
    ensures l1 == l2
  {
    NormalEquationsSolved(n, sx, sx2, sy, sxy, l1.slope, l1.intercept);
    NormalEquationsSolved(n, sx, sx2, sy, sxy, l2.slope, l2.intercept);
  }

  lemma SquaresStep(k: real)
    ensures (k - 1.0) * k * (2.0 * k - 1.0) / 6.0 + k * k == k * (k + 1.0) * (2.0 * k + 1.0) / 6.0
  {
  }

  lemma DenominatorAlgebra(k: real)
    ensures k * (k * (k + 1.0) * (2.0 * k + 1.0) / 6.0) - (k * (k + 1.0) / 2.0) * (k * (k + 1.0) / 2.0)
            == k * k * (k * k - 1.0) / 12.0
  {
  }

  /** One more point on the line keeps the first normal equation (Σy = mΣx + nb). */
  lemma LinearSumStep(n0: real, sx0: real, sy0: real, n: real, sx: real, sy: real, v: real, a: real, c: real)
    requires sy0 == a * sx0 + n0 * c
    requires n == n0 + 1.0 && v == a * n + c && sx == sx0 + n && sy == sy0 + v
    ensures sy == a * sx + n * c
  {
  }

  /** One more point on the line keeps the second normal equation (Σxy = mΣx² + bΣx). */
  lemma LinearMomentStep(n: real, sx0: real, sx20: real, sxy0: real, sx: real, sx2: real, sxy: real,
                         v: real, a: real, c: real)
    requires sxy0 == a * sx20 + c * sx0
    requires v == a * n + c && sx == sx0 + n && sx2 == sx20 + n * n && sxy == sxy0 + n * v
    ensures sxy == a * sx2 + c * sx
  {
  }
}

=== FILE: month_keys.dfy ===
/**
 * The `YYYY-MM` strings the next-month forecaster groups records by
 * (`${getFullYear()}-${String(getMonth() + 1).padStart(2, "0")}`), and the
 * key an invalid JavaScript date produces ("NaN-NaN"). Parsing a key back is
 * not done by the source; it shows that distinct calendar months never share
 * a key.
 */
module MonthKeys {
  import opened Wrappers

  predicate IsDigit(c: char) {
    '0' <= c <= '9'
  }

  predicate AllDigits(s: string) {
    forall i :: 0 <= i < |s| ==> IsDigit(s[i])
  }

  function DigitChar(d: nat): (c: char)
    requires d < 10
    ensures IsDigit(c)
  {
    ('0' as int + d) as char
  }

  function DigitValue(c: char): (d: nat)
    requires IsDigit(c)
    ensures d < 10 && DigitChar(d) == c
  {
    c as int - '0' as int
  }

  /** Decimal notation of a natural number, without leading zeros, as `String(n)`. */
  function NatToString(n: nat): (s: string)
    ensures |s| >= 1 && AllDigits(s)
  {
    if n < 10 then [DigitChar(n)] else NatToString(n / 10) + [DigitChar(n % 10)]
  }

  function ParseNat(s: string): nat
    requires AllDigits(s)
  {
    if |s| == 0 then 0 else ParseNat(s[..|s| - 1]) * 10 + DigitValue(s[|s| - 1])
  }

  lemma {:induction false} ParseNatToString(n: nat)
    ensures ParseNat(NatToString(n)) == n
  {
    var s := NatToString(n);
    if n >= 10 {
      ParseNatToString(n / 10);
      assert s[..|s| - 1] == NatToString(n / 10);
    }
  }

  /** Decimal notation of an integer, as `String(i)` for a year: a minus sign
      before negative values. */
  function IntToString(i: int): string {
    if i < 0 then "-" + NatToString(-i) else NatToString(i)
  }

  /** Two-digit month, as `String(month).padStart(2, "0")`. */
  function PadMonth(month: int): (s: string)
    requires 1 <= month <= 12
    ensures |s| == 2 && AllDigits(s)
  {
    if month < 10 then "0" + NatToString(month) else NatToString(month)
  }

  /** The key of a calendar month: year, a dash, two-digit month. */
  function MonthKey(year: int, month: int): string
    requires 1 <= month <= 12
  {
    IntToString(year) + "-" + PadMonth(month)
  }

  /** The key of a record whose date is invalid: both numbers are NaN. */
  const InvalidDateKey: string := "NaN-NaN"

  function ParseInt(s: string): Option<int> {
    if |s| >= 1 && AllDigits(s) then Some(ParseNat(s))
    else if |s| >= 2 && s[0] == '-' && AllDigits(s[1..]) then Some(-(ParseNat(s[1..]) as int))
    else None
  }

  /** Reads a key back into (year, month); None for anything MonthKey does not produce. */
  function ParseMonthKey(s: string): Option<(int, int)> {
    if |s| < 4 || s[|s| - 3] != '-' || !AllDigits(s[|s| - 2..]) then None
    else
      match ParseInt(s[..|s| - 3])
      case None => None
      case Some(year) =>
        var month := ParseNat(s[|s| - 2..]);
        if 1 <= month <= 12 then Some((year, month)) else None
  }

  lemma ParsePadMonth(month: int)
    requires 1 <= month <= 12
    ensures ParseNat(PadMonth(month)) == month
  {
    ParseNatToString(month);
    if month < 10 {
      var s := PadMonth(month);
      assert s[..1] == "0";
    }
  }

  lemma ParseIntToString(i: int)
    ensures ParseInt(IntToString(i)) == Some(i)
  {
    if i < 0 {
      ParseNegative(-i);
    } else {
      ParseNatToString(i);
    }
  }

  lemma ParseNegative(n: nat)
    requires n > 0
    ensures ParseInt("-" + NatToString(n)) == Some(-(n as int))
  {
    var digits := NatToString(n);
    var s := "-" + digits;
    assert s[0] == '-' && s[1..] == digits;
    ParseNatToString(n);
  }

  /** Every key reads back as the year and month it was made from. */
  lemma MonthKeyRoundTrip(year: int, month: int)
    requires 1 <= month <= 12
    ensures ParseMonthKey(MonthKey(year, month)) == Some((year, month))
  {
    var y, p := IntToString(year), PadMonth(month);
    var s := MonthKey(year, month);
    assert |y| >= 1 by {
      if year < 0 {
        assert y == "-" + NatToString(-year);
      }
    }
    assert s[..|s| - 3] == y;
    assert s[|s| - 3] == '-';
    assert s[|s| - 2..] == p;
    ParseIntToString(year);
    ParsePadMonth(month);
  }

  /** Records share a key exactly when they share year and month. */
  lemma MonthKeyInjective(y1: int, m1: int, y2: int, m2: int)
    requires 1 <= m1 <= 12 && 1 <= m2 <= 12
    ensures MonthKey(y1, m1) == MonthKey(y2, m2) <==> y1 == y2 && m1 == m2
  {
    MonthKeyRoundTrip(y1, m1);
    MonthKeyRoundTrip(y2, m2);
  }

  /** No calendar month shares its key with the records whose date is invalid. */
  lemma MonthKeyNotInvalid(year: int, month: int)
    requires 1 <= month <= 12
    ensures MonthKey(year, month) != InvalidDateKey
  {
    var s := MonthKey(year, month);
    assert s[|s| - 1] == PadMonth(month)[1];
    assert InvalidDateKey[|InvalidDateKey| - 1] == 'N';
  }
}

=== FILE: monthly_forecast.dfy ===
/**
 * The next-month forecaster (the computational body of getMonthlyExpenseForecast
 * in services/forecast.ts): records grouped into `YYYY-MM` totals in the order
 * their keys first appear, and a forecast chosen by the number of months — the
 * single total, a blend of moving average and median, or an ensemble that adds
 * the least-squares line continued one month.
 */
module MonthlyForecast {
  import opened Wrappers
  import opened MonthKeys
  import opened LeastSquares
  import opened Statistics
  import opened Regression
  import opened Expenses

  datatype MonthlyResult = MonthlyResult(
    forecast: real,
    months: seq<string>,
    monthlyTotals: Option<map<string, real>>,  // returned by the ensemble branch only
    line: Option<Line>,                        // slope and intercept, ensemble branch only
    message: string)

  datatype Estimate = Estimate(forecast: real, line: Option<Line>, message: string)

  const OneMonthMessage: string := "Only one month of data. Using last month's spending."
  const EnsembleMessage: string := "Ensemble of regression, moving average, and median."

  function SparseMessage(n: nat): string {
    "Simple ML: Average of last " + NatToString(n) + " months and median."
  }

  // ---------------------------------------------------------------------------
  // Grouping by month key

  /** The key of each record, in record order. */
  function RecordKeys(es: seq<Expense>): (ks: seq<string>)
    ensures |ks| == |es|
  {
    seq(|es|, i requires 0 <= i < |es| => KeyOf(es[i]))
  }

  /** Each key of `ks` once, in the order it first appears. */
  function FirstSeen(ks: seq<string>): seq<string> {
    if |ks| == 0 then []
    else
      var earlier := FirstSeen(ks[..|ks| - 1]);
      if ks[|ks| - 1] in earlier then earlier else earlier + [ks[|ks| - 1]]
  }

  /** The keys of the records in the order each first appears: the key order
      of the totals object, whose keys are never array indices. */
  function GroupKeys(es: seq<Expense>): seq<string> {
    FirstSeen(RecordKeys(es))
  }

  /** The totals, parallel to GroupKeys. */
  function TotalsFor(es: seq<Expense>, keys: seq<string>): (t: seq<real>)
    ensures |t| == |keys|
  {
    seq(|keys|, i requires 0 <= i < |keys| => KeyTotal(es, keys[i]))
  }

  function MonthlyTotals(es: seq<Expense>): seq<real> {
    TotalsFor(es, GroupKeys(es))
  }

  /** The totals object itself: each group key mapped to its group's total. */
  function TotalsByKey(es: seq<Expense>): map<string, real> {
    map key | key in GroupKeys(es) :: KeyTotal(es, key)
  }

  /** First-seen order lists no key twice. */
  lemma {:induction false} FirstSeenDistinct(ks: seq<string>)
    ensures forall i, j :: 0 <= i < j < |FirstSeen(ks)| ==> FirstSeen(ks)[i] != FirstSeen(ks)[j]
  {
    if |ks| > 0 {
      FirstSeenDistinct(ks[..|ks| - 1]);
    }
  }

  /** First-seen order lists every key of `ks` and nothing else. */
  lemma {:induction false} FirstSeenMember(ks: seq<string>, key: string)
    ensures key in FirstSeen(ks) <==> key in ks
  {
    if |ks| > 0 {
      FirstSeenMember(ks[..|ks| - 1], key);
      assert ks == ks[..|ks| - 1] + [ks[|ks| - 1]];
    }
  }

  /** Later keys never remove or reorder earlier ones. */
  lemma {:induction false} FirstSeenPrefix(ks: seq<string>, n: nat)
    requires n <= |ks|
    ensures FirstSeen(ks[..n]) <= FirstSeen(ks)
  {
    if n < |ks| {
      FirstSeenPrefix(ks[..|ks| - 1], n);
      assert ks[..|ks| - 1][..n] == ks[..n];
    } else {
      assert ks[..n] == ks;
    }
  }

  /** The keys of a prefix of the records are the prefix of their keys. */
  lemma RecordKeysPrefix(es: seq<Expense>, n: nat)
    requires n <= |es|
    ensures RecordKeys(es[..n]) == RecordKeys(es)[..n]
  {
  }

  /** The group keys grow record by record: the last record's key is added
      unless an earlier record already carries it. */
  lemma GroupKeysSnoc(es: seq<Expense>)
    requires |es| > 0
    ensures var earlier := GroupKeys(es[..|es| - 1]);
            GroupKeys(es) == if KeyOf(es[|es| - 1]) in earlier then earlier else earlier + [KeyOf(es[|es| - 1])]
  {
    RecordKeysPrefix(es, |es| - 1);
  }

  /** Each key appears once, every record's key appears, and nothing else does. */
  lemma GroupKeysExact(es: seq<Expense>)
    ensures forall i, j :: 0 <= i < j < |GroupKeys(es)| ==> GroupKeys(es)[i] != GroupKeys(es)[j]
    ensures forall i :: 0 <= i < |es| ==> KeyOf(es[i]) in GroupKeys(es)
    ensures forall key :: key in GroupKeys(es) ==> exists i :: 0 <= i < |es| && KeyOf(es[i]) == key
  {
    var ks := RecordKeys(es);
    FirstSeenDistinct(ks);
    forall i | 0 <= i < |es| ensures KeyOf(es[i]) in GroupKeys(es) {
      FirstSeenMember(ks, ks[i]);
    }
    forall key | key in GroupKeys(es) ensures exists i :: 0 <= i < |es| && KeyOf(es[i]) == key {
      FirstSeenMember(ks, key);
      var i :| 0 <= i < |ks| && ks[i] == key;
      assert KeyOf(es[i]) == key;
    }
  }

  /** Adding records never removes or reorders keys: the keys of any prefix of
      the records are a prefix of the keys of all of them. */
  lemma GroupKeysFirstSeenOrder(es: seq<Expense>, n: nat)
    requires n <= |es|
    ensures GroupKeys(es[..n]) <= GroupKeys(es)
  {
    RecordKeysPrefix(es, n);
    FirstSeenPrefix(RecordKeys(es), n);
  }

  /** A key no record carries collects nothing. */
  lemma {:induction false} KeyTotalOfAbsentKey(es: seq<Expense>, key: string)
    requires key !in GroupKeys(es)
    ensures KeyTotal(es, key) == 0.0
  {
    if |es| > 0 {
      GroupKeysSnoc(es);
      KeyTotalOfAbsentKey(es[..|es| - 1], key);
    }
  }

  /** Grouping loses and duplicates nothing: the month totals add up to the
      sum of all amounts. */
  lemma {:induction false} MonthlyTotalsConserve(es: seq<Expense>)
    ensures Sum(MonthlyTotals(es)) == TotalAmount(es)
  {
    if |es| > 0 {
      var p, e := es[..|es| - 1], es[|es| - 1];
      var keys := GroupKeys(p);
      MonthlyTotalsConserve(p);
      GroupKeysSnoc(es);
      GroupKeysExact(p);
      TotalsForLastRecord(es, keys);
      if KeyOf(e) !in keys {
        KeyTotalOfAbsentKey(p, KeyOf(e));
        TotalsForNewKey(es, keys, KeyOf(e));
      }
    }
  }

  /** The last record adds its amount to the total of its own key, if listed. */
  lemma TotalsForLastRecord(es: seq<Expense>, keys: seq<string>)
    requires |es| > 0
    requires forall i, j :: 0 <= i < j < |keys| ==> keys[i] != keys[j]
    ensures Sum(TotalsFor(es, keys))
            == Sum(TotalsFor(es[..|es| - 1], keys))
               + (if KeyOf(es[|es| - 1]) in keys then es[|es| - 1].amount else 0.0)
  {
    var e := es[|es| - 1];
    var after, before := TotalsFor(es, keys), TotalsFor(es[..|es| - 1], keys);
    forall i | 0 <= i < |keys|
      ensures after[i] == before[i] + (if keys[i] == KeyOf(e) then e.amount else 0.0)
    {
      assert after[i] == KeyTotal(es, keys[i]);
    }
    SumWithOneRaised(after, before, keys, KeyOf(e), e.amount, |keys|);
    assert keys[..|keys|] == keys;
  }

  /** Raising the entry of one key of a duplicate-free list raises the sum by
      as much, once that key is among the entries summed. */
  lemma {:induction false} SumWithOneRaised(after: seq<real>, before: seq<real>, keys: seq<string>,
                                            key: string, amount: real, m: nat)
    requires |after| == |before| == |keys| && m <= |keys|
    requires forall i, j :: 0 <= i < j < |keys| ==> keys[i] != keys[j]
    requires forall i :: 0 <= i < |keys| ==> after[i] == before[i] + (if keys[i] == key then amount else 0.0)
    ensures SumTo(after, m) == SumTo(before, m) + (if key in keys[..m] then amount else 0.0)
  {
    if m > 0 {
      SumWithOneRaised(after, before, keys, key, amount, m - 1);
      assert keys[..m] == keys[..m - 1] + [keys[m - 1]];
      if key == keys[m - 1] {
        assert key !in keys[..m - 1];
      }
    }
  }

  lemma TotalsForNewKey(es: seq<Expense>, keys: seq<string>, key: string)
    ensures Sum(TotalsFor(es, keys + [key])) == Sum(TotalsFor(es, keys)) + KeyTotal(es, key)
  {
    SumLast(TotalsFor(es, keys + [key]));
    assert TotalsFor(es, keys + [key])[..|keys|] == TotalsFor(es, keys);
  }

  // ---------------------------------------------------------------------------
  // Choosing the forecast by the number of months

  /** The ensemble of line 156: the whole number nearest the mean of the line
      continued to month n + 1, the moving average and the median. */
  function Ensemble(l: Line, n: nat, avg: int, med: int): (r: int)
    ensures var mean := (l.slope * (n + 1) as real + l.intercept + avg as real + med as real) / 3.0;
            mean - 0.5 < r as real <= mean + 0.5
  {
    Round((l.slope * (n + 1) as real + l.intercept + avg as real + med as real) / 3.0)
  }

  /** The forecast from the month totals, by branch: n = 1, 2 <= n <= 3, n > 3.
      Only the ensemble branch reports a line, and that line satisfies the
      normal equations of the totals; every branch but the first forecasts a
      whole number. */
  function NextMonthEstimate(totals: seq<real>): (e: Estimate)
    requires |totals| >= 1
    ensures e.line.Some? <==> |totals| > 3
    ensures e.line.Some? ==> NormalEquations(totals, e.line.value)
    ensures |totals| == 1 ==> e.forecast == totals[0] && e.message == OneMonthMessage
    ensures |totals| >= 2 ==> e.forecast == e.forecast.Floor as real
    ensures 2 <= |totals| <= 3 ==>
              var mean := (MovingAverage(totals) + Median(totals)) as real / 2.0;
              mean - 0.5 < e.forecast <= mean + 0.5 && e.message == SparseMessage(|totals|)
    ensures |totals| > 3 ==> e.message == EnsembleMessage
  {
    var n := |totals|;
    if n == 1 then Estimate(totals[0], None, OneMonthMessage)
    else if n <= 3 then
      Estimate(Round((MovingAverage(totals) + Median(totals)) as real / 2.0) as real, None, SparseMessage(n))
    else
      var l := Fit(totals);
      Estimate(Ensemble(l, n, MovingAverage(totals), Median(totals)) as real, Some(l), EnsembleMessage)
  }

  /** With more than three months, any line satisfying the normal equations of
      the totals is the reported line, and the forecast is its ensemble with
      the moving average and the median. */
  lemma EnsembleOfFittedLine(totals: seq<real>, l: Line)
    requires |totals| > 3 && NormalEquations(totals, l)
    ensures NextMonthEstimate(totals)
            == Estimate(Ensemble(l, |totals|, MovingAverage(totals), Median(totals)) as real, Some(l), EnsembleMessage)
  {
    FitUnique(totals, l);
  }

  /** With at most three months the forecast stays within whole-number bounds
      of the totals: the branches without a line never extrapolate. */
  lemma FewMonthsWithin(totals: seq<real>, lo: int, hi: int)
    requires 1 <= |totals| <= 3
    requires forall i :: 0 <= i < |totals| ==> lo as real <= totals[i] <= hi as real
    ensures lo as real <= NextMonthEstimate(totals).forecast <= hi as real
  {
    if |totals| >= 2 {
      MovingAverageWithin(totals, lo, hi);
      MedianWithin(totals, lo, hi);
      SparseWithin(totals, lo, hi);
    }
  }

  lemma SparseWithin(totals: seq<real>, lo: int, hi: int)
    requires 2 <= |totals| <= 3
    requires lo <= MovingAverage(totals) <= hi && lo <= Median(totals) <= hi
    ensures lo as real <= NextMonthEstimate(totals).forecast <= hi as real
  {
    var avg, med := MovingAverage(totals), Median(totals);
    MeanOfTwoWithin(avg, med, lo, hi);
    assert NextMonthEstimate(totals).forecast == Round((avg + med) as real / 2.0) as real;
  }

  lemma MeanOfTwoWithin(a: int, b: int, lo: int, hi: int)
    requires lo <= a <= hi && lo <= b <= hi
    ensures lo <= Round((a + b) as real / 2.0) <= hi
  {
  }

  /** The ensemble is the whole number nearest the mean of its three parts. */
  lemma EnsembleValue(l: Line, n: nat, avg: int, med: int, r: int)
    requires var mean := (l.slope * (n + 1) as real + l.intercept + avg as real + med as real) / 3.0;
             mean - 0.5 < r as real <= mean + 0.5
    ensures Ensemble(l, n, avg, med) == r
  {
  }

  /** Spending the same whole amount every month forecasts that amount, in every branch. */
  lemma SteadyHistory(totals: seq<real>, v: int)
    requires |totals| >= 1
    requires forall i :: 0 <= i < |totals| ==> totals[i] == v as real
    ensures NextMonthEstimate(totals).forecast == v as real
  {
    if |totals| > 3 {
      SteadyManyMonths(totals, v);
    } else {
      FewMonthsWithin(totals, v, v);
    }
  }

  lemma SteadyManyMonths(totals: seq<real>, v: int)
    requires |totals| > 3
    requires forall i :: 0 <= i < |totals| ==> totals[i] == v as real
    ensures NextMonthEstimate(totals).forecast == v as real
  {
    MovingAverageWithin(totals, v, v);
    MedianWithin(totals, v, v);
    SteadyLine(totals, v);
    EnsembleOfFittedLine(totals, Line(0.0, v as real));
    SteadyEnsemble(|totals|, v);
  }

  lemma SteadyLine(totals: seq<real>, v: int)
    requires |totals| >= 2
    requires forall i :: 0 <= i < |totals| ==> totals[i] == v as real
    ensures Fit(totals) == Line(0.0, v as real)
  {
    assert OnLine(totals, 0.0, v as real);
    ExactFit(totals, 0.0, v as real);
  }

  lemma SteadyEnsemble(n: nat, v: int)
    ensures Ensemble(Line(0.0, v as real), n, v, v) == v
  {
    assert (0.0 * (n + 1) as real + v as real + v as real + v as real) / 3.0 == v as real;
    RoundOfInteger(v);
  }

  lemma SteadyPair(v: int)
    ensures Round((v + v) as real / 2.0) == v
  {
    assert (v + v) as real / 2.0 == v as real;
    RoundOfInteger(v);
  }

  /** Three months of 100, 200 and 300: moving average 200, median 200, forecast 200. */
  lemma ThreeMonthExample(t: seq<real>)
    requires t == [100.0, 200.0, 300.0]
    ensures MovingAverage(t) == 200 && Median(t) == 200
    ensures NextMonthEstimate(t).forecast == 200.0
  {
    ThreeMonthAverages(t);
    SteadyPair(200);
  }

  lemma ThreeMonthAverages(t: seq<real>)
    requires t == [100.0, 200.0, 300.0]
    ensures MovingAverage(t) == 200 && Median(t) == 200
  {
    MovingAverageLastThree(t);
    assert (t[0] + t[1] + t[2]) / 3.0 == 200 as real;
    MedianOfSorted(t, t);
    RoundOfInteger(200);
  }

  /** Five months of 100..500 lie on a line: slope 100, intercept 0, the line
      continues to 600, the moving average is 400, the median 300, and the
      ensemble forecasts round(1300 / 3) = 433. */
  lemma FiveMonthExample(t: seq<real>)
    requires t == [100.0, 200.0, 300.0, 400.0, 500.0]
    ensures Fit(t) == Line(100.0, 0.0)
    ensures MovingAverage(t) == 400 && Median(t) == 300
    ensures NextMonthEstimate(t).forecast == 433.0
  {
    FiveMonthFit(t);
    FiveMonthAverages(t);
    EnsembleOfFittedLine(t, Line(100.0, 0.0));
    EnsembleValue(Line(100.0, 0.0), 5, 400, 300, 433);
  }

  lemma FiveMonthFit(t: seq<real>)
    requires t == [100.0, 200.0, 300.0, 400.0, 500.0]
    ensures Fit(t) == Line(100.0, 0.0)
  {
    assert OnLine(t, 100.0, 0.0);
    ExactFit(t, 100.0, 0.0);
  }

  lemma FiveMonthAverages(t: seq<real>)
    requires t == [100.0, 200.0, 300.0, 400.0, 500.0]
    ensures MovingAverage(t) == 400 && Median(t) == 300
  {
    MovingAverageLastThree(t);
    assert (t[2] + t[3] + t[4]) / 3.0 == 400 as real;
    RoundOfInteger(400);
    MedianOfSorted(t, t);
    RoundOfInteger(300);
  }

  /** Unlike the current-month forecast, the next-month forecast can be negative:
      one month of 1000 followed by three empty ones fits the line 1000 - 300x,
      which continues to -500, and the ensemble is round(-500 / 3) = -167. */
  lemma NegativeForecastExample(t: seq<real>)
    requires t == [1000.0, 0.0, 0.0, 0.0]
    ensures Fit(t) == Line(-300.0, 1000.0)
    ensures NextMonthEstimate(t).forecast == -167.0
  {
    NegativeExampleFit(t);
    NegativeExampleAverages(t);
    EnsembleOfFittedLine(t, Line(-300.0, 1000.0));
    EnsembleValue(Line(-300.0, 1000.0), 4, 0, 0, -167);
  }

  lemma NegativeExampleFit(t: seq<real>)
    requires t == [1000.0, 0.0, 0.0, 0.0]
    ensures Fit(t) == Line(-300.0, 1000.0)
  {
    SumsOfFour(t);
    SumXClosedForm(4);
    SumX2ClosedForm(4);
    FitUnique(t, Line(-300.0, 1000.0));
  }

  lemma NegativeExampleAverages(t: seq<real>)
    requires t == [1000.0, 0.0, 0.0, 0.0]
    ensures MovingAverage(t) == 0 && Median(t) == 0
  {
    MovingAverageLastThree(t);
    RoundOfInteger(0);
    var sorted := [0.0, 0.0, 0.0, 1000.0];
    assert multiset(sorted) == multiset(t);
    MedianOfSorted(t, sorted);
  }

  lemma SumsOfFour(t: seq<real>)
    requires |t| == 4
    ensures Sum(t) == t[0] + t[1] + t[2] + t[3]
    ensures SumXY(t) == t[0] + 2.0 * t[1] + 3.0 * t[2] + 4.0 * t[3]
  {
    assert SumTo(t, 1) == t[0] && SumXYTo(t, 1) == t[0];
    assert SumTo(t, 2) == t[0] + t[1] && SumXYTo(t, 2) == t[0] + 2.0 * t[1];
    assert SumTo(t, 3) == t[0] + t[1] + t[2] && SumXYTo(t, 3) == t[0] + 2.0 * t[1] + 3.0 * t[2];
  }

  /** Adding one record to the totals object keeps every entry the total of
      its key over the records seen so far. */
  lemma TallyStep(seen: seq<Expense>, e: Expense, m: map<string, real>)
    requires forall key :: key in m ==> m[key] == KeyTotal(seen, key)
    requires KeyOf(e) !in m ==> KeyTotal(seen, KeyOf(e)) == 0.0
    ensures var prior := if KeyOf(e) in m then m[KeyOf(e)] else 0.0;
            var updated := m[KeyOf(e) := prior + e.amount];
            forall key :: key in updated ==> updated[key] == KeyTotal(seen + [e], key)
  {
    assert (seen + [e])[..|seen|] == seen;
  }

  /** Lines 91-96: the totals object filled record by record, each record's
      amount added to its month's entry, and the keys in insertion order. */
  method TallyByMonth(expenses: seq<Expense>) returns (months: seq<string>, totalsByKey: map<string, real>)
    ensures months == GroupKeys(expenses)
    ensures totalsByKey == TotalsByKey(expenses)
  {
    totalsByKey := map[];
    months := [];
    for k := 0 to |expenses|
      invariant months == GroupKeys(expenses[..k])
      invariant forall key :: key in totalsByKey <==> key in months
      invariant forall key :: key in totalsByKey ==> totalsByKey[key] == KeyTotal(expenses[..k], key)
    {
      var e := expenses[k];
      assert expenses[..k + 1][..k] == expenses[..k];
      assert expenses[..k + 1] == expenses[..k] + [e];
      GroupKeysSnoc(expenses[..k + 1]);
      var key := KeyOf(e);
      if key !in totalsByKey {
        KeyTotalOfAbsentKey(expenses[..k], key);
      }
      TallyStep(expenses[..k], e, totalsByKey);
      var prior := if key in totalsByKey then totalsByKey[key] else 0.0;
      totalsByKey := totalsByKey[key := prior + e.amount];
      if key !in months {
        months := months + [key];
      }
    }
    assert expenses[..|expenses|] == expenses;
    assert totalsByKey.Keys == TotalsByKey(expenses).Keys;
  }

  /** Lines 91-99: the month keys, the totals object, and its values listed in
      key order. */
  method GroupByMonth(expenses: seq<Expense>) returns (months: seq<string>, totalsByKey: map<string, real>, totals: seq<real>)
    ensures months == GroupKeys(expenses)
    ensures totalsByKey == TotalsByKey(expenses)
    ensures totals == MonthlyTotals(expenses)
    ensures |expenses| > 0 ==> |totals| >= 1
  {
    months, totalsByKey := TallyByMonth(expenses);
    if |expenses| > 0 {
      GroupKeysExact(expenses);
      assert KeyOf(expenses[0]) in months;
    }
    totals := seq(|months|, i requires 0 <= i < |months| && months[i] in totalsByKey => totalsByKey[months[i]]);
  }

  // ---------------------------------------------------------------------------
  // The forecaster

  method ForecastNextMonth(expenses: seq<Expense>) returns (r: Option<MonthlyResult>)
    ensures r.None? <==> |expenses| == 0
    ensures r.Some? ==> r.value.months == GroupKeys(expenses) && |r.value.months| >= 1
    ensures r.Some? ==>
              var e := NextMonthEstimate(MonthlyTotals(expenses));
              r.value.forecast == e.forecast && r.value.line == e.line && r.value.message == e.message
    ensures r.Some? ==>
              r.value.monthlyTotals == if |r.value.months| > 3 then Some(TotalsByKey(expenses)) else None
  {
    if |expenses| == 0 {
      return None;
    }
    var months, totalsByKey, totals := GroupByMonth(expenses);
    var e := NextMonthEstimate(totals);
    var returned := if |totals| > 3 then Some(totalsByKey) else None;
    return Some(MonthlyResult(e.forecast, months, returned, e.line, e.message));
  }
}

=== FILE: regression.dfy ===
/**
 * The ordinary least-squares line through the points (1, y[0]), ..., (n, y[n-1]),
 * as both forecasters fit it: the line is specified by the normal equations,
 * which it satisfies and which no other line satisfies.
 */
module Regression {
  import opened LeastSquares
  import opened Statistics

  /** The least-squares line over x = 1..|y|. */
  function Fit(y: seq<real>): (l: Line)
    requires |y| >= 2
    ensures NormalEquations(y, l)
  {
    DenominatorPositive(|y|);
    SolveNormalEquations(|y| as real, SumX(|y|), SumX2(|y|), Sum(y), SumXY(y))
  }

  /** The normal equations have a single solution, so the fitted line is the
      only line satisfying them. */
  lemma FitUnique(y: seq<real>, l: Line)
    requires |y| >= 2 && NormalEquations(y, l)
    ensures l == Fit(y)
  {
    NormalEquationsUnique(y, l, Fit(y));
  }

  /** Points that already lie on a line are fitted by that line. */
  lemma ExactFit(y: seq<real>, a: real, c: real)
    requires |y| >= 2 && OnLine(y, a, c)
    ensures Fit(y) == Line(a, c)
  {
    LinearSums(y, |y|, a, c);
    FitUnique(y, Line(a, c));
  }
}

=== FILE: statistics.dfy ===
/**
 * The numeric primitives both forecasters share: left-to-right sums (the
 * source's `reduce`), JavaScript's Math.round, the ordinary least-squares fit
 * over the positions x = 1..n, the median of a sorted copy and the moving
 * average of the last three values. Numbers are exact reals, not IEEE doubles.
 */
module Statistics {
  import opened LeastSquares

  /** The sum of the first k values, folded from the left as `reduce` folds them. */
  function SumTo(s: seq<real>, k: nat): real
    requires k <= |s|
  {
    if k == 0 then 0.0 else SumTo(s, k - 1) + s[k - 1]
  }

  /** Sum of `s`, as `s.reduce((a, b) => a + b, 0)`. */
  function Sum(s: seq<real>): real {
    SumTo(s, |s|)
  }

  /** Math.round: the nearest integer, halves rounded up (towards +infinity). */
  function Round(v: real): (r: int)
    ensures v - 0.5 < r as real <= v + 0.5
  {
    (v + 0.5).Floor
  }

  /** The least integer that is not below `v`. */
  function Ceil(v: real): (r: int)
    ensures v <= r as real < v + 1.0
  {
    -((-v).Floor)
  }

  /** The ceiling is the rounding or one more, and one more exactly when the
      rounding lies below the value. */
  lemma CeilAboveRound(v: real)
    ensures Round(v) <= Ceil(v) <= Round(v) + 1
    ensures Ceil(v) != Round(v) <==> (Round(v) as real) < v
  {
  }

  lemma RoundOfInteger(k: int)
    ensures Round(k as real) == k
  {
  }

  // ---------------------------------------------------------------------------
  // Sums over the regression positions x = 1..n

  /** Σx for x = 1..n. */
  function SumX(n: nat): real {
    if n == 0 then 0.0 else SumX(n - 1) + n as real
  }

  /** Σx² for x = 1..n. */
  function SumX2(n: nat): real {
    if n == 0 then 0.0 else SumX2(n - 1) + n as real * n as real
  }

  /** Σx·y over the first k values, y[i] paired with position x = i + 1. */
  function SumXYTo(y: seq<real>, k: nat): real
    requires k <= |y|
  {
    if k == 0 then 0.0 else SumXYTo(y, k - 1) + k as real * y[k - 1]
  }

  /** Σx·y over all of y. */
  function SumXY(y: seq<real>): real {
    SumXYTo(y, |y|)
  }

  /** Sums over the first k values depend on those values only. */
  lemma {:induction false} SumToPrefix(s: seq<real>, t: seq<real>, k: nat)
    requires k <= |s| && k <= |t| && s[..k] == t[..k]
    ensures SumTo(s, k) == SumTo(t, k) && SumXYTo(s, k) == SumXYTo(t, k)
  {
    if k > 0 {
      assert s[..k - 1] == s[..k][..k - 1] == t[..k][..k - 1] == t[..k - 1];
      assert s[k - 1] == s[..k][k - 1] == t[..k][k - 1] == t[k - 1];
      SumToPrefix(s, t, k - 1);
    }
  }

  /** The whole sum is the sum without the last value plus that value. */
  lemma SumLast(s: seq<real>)
    requires |s| > 0
    ensures Sum(s) == Sum(s[..|s| - 1]) + s[|s| - 1]
  {
    SumToPrefix(s, s[..|s| - 1], |s| - 1);
  }

  lemma SumSnoc(s: seq<real>, x: real)
    ensures Sum(s + [x]) == Sum(s) + x
    ensures SumXY(s + [x]) == SumXY(s) + |s + [x]| as real * x
  {
    SumToPrefix(s + [x], s, |s|);
  }

  /** Zeros sum to zero, with or without their positions as weights. */
  lemma {:induction false} SumToOfZeros(s: seq<real>, k: nat)
    requires k <= |s| && forall i :: 0 <= i < k ==> s[i] == 0.0
    ensures SumTo(s, k) == 0.0 && SumXYTo(s, k) == 0.0
  {
    if k > 0 {
      SumToOfZeros(s, k - 1);
    }
  }

  lemma {:induction false} SumXClosedForm(n: nat)
    ensures SumX(n) == n as real * (n as real + 1.0) / 2.0
  {
    if n > 0 {
      SumXClosedForm(n - 1);
    }
  }

  lemma {:induction false} SumX2ClosedForm(n: nat)
    ensures SumX2(n) == n as real * (n as real + 1.0) * (2.0 * n as real + 1.0) / 6.0
  {
    if n > 0 {
      SumX2ClosedForm(n - 1);
      SquaresStep(n as real);
    }
  }

  /** The regression denominator n·Σx² − (Σx)². */
  function Denominator(n: nat): real {
    n as real * SumX2(n) - SumX(n) * SumX(n)
  }

  /** n·Σx² − (Σx)² = n²(n² − 1)/12 over x = 1..n. */
  lemma DenominatorClosedForm(n: nat)
    ensures Denominator(n) == n as real * n as real * (n as real * n as real - 1.0) / 12.0
  {
    SumXClosedForm(n);
    SumX2ClosedForm(n);
    DenominatorAlgebra(n as real);
  }

  /** With at least two points the regression denominator is strictly
      positive, so the slope is always defined where it is computed. */
  lemma DenominatorPositive(n: nat)
    requires n >= 2
    ensures Denominator(n) > 0.0
  {
    DenominatorClosedForm(n);
    var k := n as real;
    assert k * k >= 4.0;
    assert k * k * (k * k - 1.0) > 0.0;
  }

  /** The two normal equations of least squares over the first k points, at
      x = 1..k: the residuals sum to zero and are uncorrelated with x. A line
      satisfies them exactly when it minimises the sum of squared vertical
      errors. */
  predicate NormalEquationsUpTo(y: seq<real>, k: nat, a: real, c: real)
    requires k <= |y|
  {
    SumTo(y, k) == a * SumX(k) + k as real * c
    && SumXYTo(y, k) == a * SumX2(k) + c * SumX(k)
  }

  /** The normal equations over all of y. */
  predicate NormalEquations(y: seq<real>, l: Line) {
    NormalEquationsUpTo(y, |y|, l.slope, l.intercept)
  }

  /** The normal equations over at least two points have one solution only. */
  lemma NormalEquationsUnique(y: seq<real>, l1: Line, l2: Line)
    requires |y| >= 2 && NormalEquations(y, l1) && NormalEquations(y, l2)
    ensures l1 == l2
  {
    DenominatorPositive(|y|);
    SolutionUnique(|y| as real, SumX(|y|), SumX2(|y|), Sum(y), SumXY(y), l1, l2);
  }

  /** y[i] is the value of the line a·x + c at x = i + 1, for every i. */
  predicate OnLine(y: seq<real>, a: real, c: real) {
    forall i :: 0 <= i < |y| ==> y[i] == a * (i + 1) as real + c
  }

  /** Points on a line satisfy the normal equations of that line, over every prefix. */
  lemma {:induction false} LinearSums(y: seq<real>, k: nat, a: real, c: real)
    requires k <= |y| && OnLine(y, a, c)
    ensures NormalEquationsUpTo(y, k, a, c)
  {
    if k > 0 {
      LinearSums(y, k - 1, a, c);
      PointOnLine(y, k, a, c);
      NormalEquationsStep(y, k, a, c);
    }
  }

  lemma PointOnLine(y: seq<real>, k: nat, a: real, c: real)
    requires 0 < k <= |y| && OnLine(y, a, c)
    ensures y[k - 1] == a * k as real + c
  {
    assert y[k - 1] == a * ((k - 1) + 1) as real + c;
  }

  /** A k-th point on the line keeps the normal equations of the first k - 1
      points satisfied. */
  lemma NormalEquationsStep(y: seq<real>, k: nat, a: real, c: real)
    requires 0 < k <= |y| && NormalEquationsUpTo(y, k - 1, a, c)
    requires y[k - 1] == a * k as real + c
    ensures NormalEquationsUpTo(y, k, a, c)
  {
    SumEquationStep(y, k, a, c);
    MomentEquationStep(y, k, a, c);
  }

  lemma SumEquationStep(y: seq<real>, k: nat, a: real, c: real)
    requires 0 < k <= |y|
    requires SumTo(y, k - 1) == a * SumX(k - 1) + (k - 1) as real * c
    requires y[k - 1] == a * k as real + c
    ensures SumTo(y, k) == a * SumX(k) + k as real * c
  {
    LinearSumStep((k - 1) as real, SumX(k - 1), SumTo(y, k - 1), k as real, SumX(k), SumTo(y, k), y[k - 1], a, c);
  }

  lemma MomentEquationStep(y: seq<real>, k: nat, a: real, c: real)
    requires 0 < k <= |y|
    requires SumXYTo(y, k - 1) == a * SumX2(k - 1) + c * SumX(k - 1)
    requires y[k - 1] == a * k as real + c
    ensures SumXYTo(y, k) == a * SumX2(k) + c * SumX(k)
  {
    LinearMomentStep(k as real, SumX(k - 1), SumX2(k - 1), SumXYTo(y, k - 1),
                     SumX(k), SumX2(k), SumXYTo(y, k), y[k - 1], a, c);
  }

  // ---------------------------------------------------------------------------
  // Median of a sorted copy

  predicate Sorted(s: seq<real>) {
    forall i, j :: 0 <= i < j < |s| ==> s[i] <= s[j]
  }

  function Insert(x: real, s: seq<real>): (r: seq<real>)
    requires Sorted(s)
    ensures Sorted(r) && multiset(r) == multiset(s) + multiset{x}
  {
    if |s| == 0 then [x]
    else if x <= s[0] then
      InsertFirst(x, s);
      [x] + s
    else
      SortedTail(s);
      var rest := Insert(x, s[1..]);
      InsertLater(x, s, rest);
      [s[0]] + rest
  }

  lemma InsertFirst(x: real, s: seq<real>)
    requires Sorted(s) && |s| > 0 && x <= s[0]
    ensures Sorted([x] + s) && multiset([x] + s) == multiset(s) + multiset{x}
  {
  }

  lemma InsertLater(x: real, s: seq<real>, rest: seq<real>)
    requires Sorted(s) && |s| > 0 && s[0] < x
    requires Sorted(rest) && multiset(rest) == multiset(s[1..]) + multiset{x}
    ensures Sorted([s[0]] + rest) && multiset([s[0]] + rest) == multiset(s) + multiset{x}
  {
    forall v | v in multiset(rest) ensures s[0] <= v {
      if v != x {
        assert v in multiset(s[1..]);
        var i :| 0 <= i < |s[1..]| && s[1..][i] == v;
        assert s[i + 1] == v;
      }
    }
    SortedCons(s[0], rest);
    assert s == [s[0]] + s[1..];
  }

  lemma SortedCons(x: real, r: seq<real>)
    requires Sorted(r)
    requires forall v :: v in multiset(r) ==> x <= v
    ensures Sorted([x] + r)
  {
    forall i | 0 <= i < |r| ensures x <= r[i] {
      assert r[i] in multiset(r);
    }
  }

  /** The ascending copy `[...s].sort((a, b) => a - b)`; `s` itself is a value
      and stays as it was. */
  function SortAscending(s: seq<real>): (r: seq<real>)
    ensures Sorted(r) && multiset(r) == multiset(s)
  {
    if |s| == 0 then []
    else
      LastSplit(s);
      Insert(s[|s| - 1], SortAscending(s[..|s| - 1]))
  }

  lemma LastSplit(s: seq<real>)
    requires |s| > 0
    ensures multiset(s) == multiset(s[..|s| - 1]) + multiset{s[|s| - 1]}
  {
    assert s == s[..|s| - 1] + [s[|s| - 1]];
  }

  /** Two sorted sequences with the same elements are equal: the ascending
      copy is determined by the multiset of values, not by the sorting method. */
  lemma {:induction false} SortedUnique(a: seq<real>, b: seq<real>)
    requires Sorted(a) && Sorted(b) && multiset(a) == multiset(b)
    ensures a == b
  {
    SameLength(a, b);
    if |a| > 0 {
      SameLeast(a, b);
      SortedTail(a);
      SortedTail(b);
      SortedUnique(a[1..], b[1..]);
      SameHeadAndTail(a, b);
    }
  }

  lemma SameLength(a: seq<real>, b: seq<real>)
    requires multiset(a) == multiset(b)
    ensures |a| == |b|
  {
    assert |a| == |multiset(a)|;
    assert |b| == |multiset(b)|;
  }

  lemma SameLeast(a: seq<real>, b: seq<real>)
    requires Sorted(a) && Sorted(b) && multiset(a) == multiset(b) && |a| == |b| > 0
    ensures a[0] == b[0]
  {
    LeastOfSorted(a, b[0]);
    LeastOfSorted(b, a[0]);
  }

  lemma SameHeadAndTail(a: seq<real>, b: seq<real>)
    requires |a| == |b| > 0 && a[0] == b[0] && a[1..] == b[1..]
    ensures a == b
  {
    assert a == [a[0]] + a[1..];
    assert b == [b[0]] + b[1..];
  }

  /** Dropping the first element keeps a sequence sorted and removes one copy of it. */
  lemma SortedTail(s: seq<real>)
    requires Sorted(s) && |s| > 0
    ensures Sorted(s[1..]) && multiset(s[1..]) == multiset(s) - multiset{s[0]}
  {
    assert s == [s[0]] + s[1..];
  }

  /** The first element of a sorted sequence is at most each of its elements. */
  lemma LeastOfSorted(s: seq<real>, v: real)
    requires Sorted(s) && v in multiset(s)
    ensures |s| > 0 && s[0] <= v
  {
    var i :| 0 <= i < |s| && s[i] == v;
  }

  /** The source's median(): the middle of the sorted copy, or the rounded
      mean of the two middle values when the length is even; 0 when empty. */
  function Median(s: seq<real>): int {
    if |s| == 0 then 0
    else
      var t := SortAscending(s);
      var mid := |t| / 2;
      if |t| % 2 == 0 then Round((t[mid - 1] + t[mid]) / 2.0) else Round(t[mid])
  }

  /** The median depends on the values only, not on the order they come in. */
  lemma MedianIgnoresOrder(s: seq<real>, t: seq<real>)
    requires multiset(s) == multiset(t)
    ensures Median(s) == Median(t)
  {
    SortedUnique(SortAscending(s), SortAscending(t));
    assert |s| == |multiset(s)| == |multiset(t)| == |t|;
  }

  /** The median read off any ascending arrangement of the values: the middle
      one, or the rounded mean of the middle two. */
  lemma MedianOfSorted(s: seq<real>, sorted: seq<real>)
    requires |s| > 0 && Sorted(sorted) && multiset(sorted) == multiset(s)
    ensures |sorted| == |s|
    ensures Median(s) == if |s| % 2 == 0 then Round((sorted[|s| / 2 - 1] + sorted[|s| / 2]) / 2.0)
                         else Round(sorted[|s| / 2])
  {
    SortedUnique(SortAscending(s), sorted);
  }

  /** With every value between two whole numbers, so is the median. */
  lemma MedianWithin(s: seq<real>, lo: int, hi: int)
    requires |s| > 0
    requires forall i :: 0 <= i < |s| ==> lo as real <= s[i] <= hi as real
    ensures lo <= Median(s) <= hi
  {
    var t := SortAscending(s);
    forall i | 0 <= i < |t| ensures lo as real <= t[i] <= hi as real {
      assert t[i] in multiset(s);
    }
  }

  // ---------------------------------------------------------------------------
  // Moving average of the last three values

  /** The source's movingAvg(): the rounded mean of the last min(3, n) values; 0 when empty. */
  function MovingAverage(s: seq<real>): int {
    if |s| == 0 then 0
    else
      var k := if |s| < 3 then |s| else 3;
      Round(Sum(s[|s| - k..]) / k as real)
  }

  /** Only the three most recent values matter once there are three of them. */
  lemma MovingAverageRecent(history: seq<real>, recent: seq<real>)
    requires |recent| >= 3
    ensures MovingAverage(history + recent) == MovingAverage(recent)
  {
    var s := history + recent;
    assert s[|s| - 3..] == recent[|recent| - 3..];
  }

  /** With one to three values, the moving average is the rounded mean of them all. */
  lemma MovingAverageAll(s: seq<real>)
    requires 1 <= |s| <= 3
    ensures MovingAverage(s) == Round(Sum(s) / |s| as real)
  {
    assert s[|s| - |s|..] == s;
  }

  /** With three or more values, the moving average is the rounded mean of the last three. */
  lemma MovingAverageLastThree(s: seq<real>)
    requires |s| >= 3
    ensures MovingAverage(s) == Round((s[|s| - 3] + s[|s| - 2] + s[|s| - 1]) / 3.0)
  {
    var w := s[|s| - 3..];
    assert SumTo(w, 1) == s[|s| - 3];
    assert SumTo(w, 2) == s[|s| - 3] + s[|s| - 2];
    assert SumTo(w, 3) == s[|s| - 3] + s[|s| - 2] + s[|s| - 1];
  }

  lemma {:induction false} SumWithin(s: seq<real>, k: nat, lo: real, hi: real)
    requires k <= |s| && forall i :: 0 <= i < |s| ==> lo <= s[i] <= hi
    ensures k as real * lo <= SumTo(s, k) <= k as real * hi
  {
    if k > 0 {
      SumWithin(s, k - 1, lo, hi);
    }
  }

  /** With every value between two whole numbers, so is the moving average. */
  lemma MovingAverageWithin(s: seq<real>, lo: int, hi: int)
    requires |s| > 0
    requires forall i :: 0 <= i < |s| ==> lo as real <= s[i] <= hi as real
    ensures lo <= MovingAverage(s) <= hi
  {
    var k := if |s| < 3 then |s| else 3;
    var w := s[|s| - k..];
    SumWithin(w, |w|, lo as real, hi as real);
    var mean := Sum(w) / k as real;
    assert lo as real <= mean <= hi as real;
  }
}

=== FILE: wrappers.dfy ===
/** Optional values: absent fields of a forecast result, unparseable dates. */
module Wrappers {
  datatype Option<+T> = None | Some(value: T)
}
